=== FILE: README.md ===
# Rekognition photo bot: the result card and the `photos` dispatch

This project models, in Dafny, the logic core of a chat bot that analyses photos
with Amazon Rekognition. A user runs the `photos` command with one image, or with
two. With one image the bot asks the service for labels, celebrities, face details
and text. With two it asks the service to compare the faces. Either way it posts
the image(s) back, then a card titled "Photo Results" with an ordered list of
fields.

Two parts of `main.py` are modelled:

- `build_embed` (`Embed.BuildEmbed`). It turns the possibly-missing keys of the
  service responses into the card's fields. Only the first face is used. Missing
  keys fall back to `Unknown`, `0` or `False`. The five-line attribute checklist is
  always complete. Celebrities without a name are dropped. A list field appears
  only when its joined string is non-empty. The detected text is cut to 1024
  characters.
- The `photos` handler (`Photos.HandlePhotos`), written as a pure function. Its
  inputs are the optional attachments, a readable/unreadable flag per attachment,
  and the service's reply (or error) for each operation. Its result is a `Run`. A
  `Run` records the service requests issued, the number of image files posted, and
  the card or error card that followed. A second attachment selects the comparison
  path. The similarity is the first match's score, or 0 when there is no match.
  The verdict is "Likely the same person" only for a similarity strictly above 90.

Percentages (confidences and similarities) are fixed-point hundredths: 9012 stands
for 90.12. `Decimal.Fmt2` renders them the way `:.2f` does. The readers
`Decimal.ParseFmt2` and `EmbedLaws.ParseAgeRange` invert the renderings of
percentages and age ranges, so distinct values never render to the same text
there. `Text.Split` recovers the five attribute lines from the Attributes value.
It recovers the emotion lines only when no emotion type contains a newline.
Otherwise two different emotion lists can give the same Emotions text.

Modules: `Wrappers` (Option/Result), `Text` (join, split, prefix), `Decimal`
(number rendering), `Rekognition` (response shapes), `Embed` (`build_embed`),
`EmbedLaws` (properties of the card), `Photos` (the handler) and `PhotosLaws`
(properties of the two paths).

Behaviours of the code that the model keeps, although a reader might expect otherwise:

- An object or text field is left out when its joined string is empty. This
  includes a single label whose name is empty, not only an empty list.
- A label without `Name`, or a text detection without `DetectedText`, raises
  `KeyError` inside `build_embed`. The files message has already gone out by then,
  so the run ends with an error card after the files. A missing top-level key
  (`Labels`, `CelebrityFaces`, `FaceDetails`, `TextDetections`) or a first match
  without `Similarity` raises `KeyError` before anything is posted.
- The unreadable-bytes check exists only on the comparison path. On the single
  path the missing bytes go to the service client, which rejects them during its
  own parameter validation before sending anything. The model records this as
  `InvalidBytesParameter` with no request issued.
- Both unreadable-bytes failures assume that `discord.File` can still open the
  saved path (main.py:187 and 195) although `load_image_bytes` could not read it.
  In the usual case, a file that cannot be opened at all, `discord.File` raises
  first in both modes. The readable flag stands only for the narrower case.
- The comparison path only checks that the bytes are not `None`. Empty byte
  strings pass.

## Model

| member | source | states |
|---|---|---|
| Embed.BuildEmbed | main.py:82-133 | the card is built exactly when every label has a `Name` and every text detection has `DetectedText`; otherwise it fails with the missing key (`Name` first), and a built card is titled "Photo Results" |
| Embed.LabelNames | main.py:111 | the label names in order, one per label, present exactly when no label lacks `Name` |
| Embed.TextStrings | main.py:129 | the detected strings in order, one per detection, present exactly when no detection lacks `DetectedText` |
| Embed.CelebrityNames | main.py:116 | a name is kept exactly when some celebrity entry carries it, and there are never more names than entries |
| EmbedLaws.CelebrityNamesInOrder | main.py:116 | the names are those of the named entries at strictly increasing positions that include every named entry: all named entries, in order, duplicates kept |
| EmbedLaws.CelebrityNamesConcat | main.py:116 | the names of two consecutive runs of entries are the names of the first run followed by those of the second |
| EmbedLaws.FieldsInOrder | main.py:94-131 | every field name is one of the nine, and present fields follow Gender, Age Range, Emotions, Attributes, Objects Detected, Celebrities, Match Status, Similarity, Detected Text strictly, so no name repeats |
| EmbedLaws.FieldValuesNonEmpty | main.py:94-131 | no field is shown with an empty value |
| EmbedLaws.NoFaceNoFaceFields | main.py:86-87 | without face details there is no Gender, Age Range, Emotions or Attributes field |
| EmbedLaws.FirstFaceFields | main.py:86-108 | with a face, Gender, Age Range and Attributes are shown for the first face, and Emotions is shown exactly when that face's emotion list is non-empty, holding that face's newline-joined emotion lines |
| EmbedLaws.EmotionsNonEmptyIff | main.py:98-100 | the newline-joined emotion lines are non-empty exactly when the emotion list is non-empty |
| EmbedLaws.EmotionLinesShape | main.py:98 | one line per emotion in the service's order; each is exactly the type (`None` when missing), ` (`, the two-decimal confidence that reads back to the reported one (0.00 when missing) and `%)`; with at least one emotion and no newline in any type, splitting the value at newlines gives the lines back |
| EmbedLaws.EmotionLineShape | main.py:98 | one emotion line is exactly its type (`None` when missing), ` (`, a two-decimal number without leading zeros that reads back to the confidence (0.00 when missing), and `%)`; it has a newline only when its type has one |
| EmbedLaws.FirstFaceOnly | main.py:88 | replacing every face after the first leaves the card unchanged |
| EmbedLaws.OtherAttributesIgnored | main.py:104-107 | a yes/no attribute outside the five-name checklist (for example `EyesOpen`) never changes the face fields |
| EmbedLaws.AttributeChecklist | main.py:102-108 | the Attributes value splits into exactly five lines in the order Sunglasses, Eyeglasses, Beard, Mustache, Smile; each is exactly `<name>: Yes` when that attribute's value is true and `<name>: No` otherwise, followed only by ` (Confidence: <c>%)` where `<c>` reads back to its confidence (0.00 when none was given); a missing attribute reads `No (Confidence: 0.00%)` |
| EmbedLaws.AttributeLineShape | main.py:105-107 | one checklist line is exactly `<name>: Yes` for a true value and `<name>: No` for any other (false or missing), then ` (Confidence: `, a two-decimal number that reads back to the reported confidence (0.00 when there is none), and `%)` |
| EmbedLaws.AttributeLineDefault | main.py:105-107 | an attribute the service left out renders as `<name>: No (Confidence: 0.00%)` |
| EmbedLaws.AgeRangeReadBack | main.py:93 | reading the Age Range text back gives both bounds exactly; a missing low bound puts `Unknown - ` first, and a missing high bound puts ` - Unknown` last |
| EmbedLaws.BoundReadBack | main.py:93 | a bound's text reads back to the bound, and a number never reads as `Unknown` |
| EmbedLaws.GenderShape | main.py:91-94 | the Gender text starts with the reported gender (`Unknown` when missing) and ends with ` (Confidence: <c>%)` for the reported confidence (0.00 when missing) |
| EmbedLaws.GenderConfidenceReadBack | main.py:92-94 | after the gender and ` (Confidence: ` comes a two-decimal number without leading zeros that reads back to the reported confidence, then `%)` |
| EmbedLaws.GenderMissing | main.py:91-94 | a face without Gender shows `Unknown (Confidence: 0.00%)` |
| EmbedLaws.GenderValueMissing | main.py:91-94 | a Gender without a value shows `Unknown` in the value position |
| EmbedLaws.GenderConfidenceMissing | main.py:92-94 | a Gender without a confidence ends with `(Confidence: 0.00%)` |
| EmbedLaws.ObjectsField | main.py:111-113 | Objects Detected holds the `", "`-joined label names, and is shown exactly when there are two labels or more, or one with a non-empty name |
| EmbedLaws.NamelessCelebrityDropped | main.py:116 | inserting a celebrity without a name anywhere leaves the name list unchanged |
| EmbedLaws.NamelessCelebrityIgnored | main.py:116-118 | inserting a celebrity without a name anywhere leaves the whole card unchanged |
| EmbedLaws.CelebritiesField | main.py:116-118 | Celebrities holds the `", "`-joined names of the named entries, and is shown exactly when there are two named entries or more, or one with a non-empty name |
| EmbedLaws.MatchFields | main.py:121-126 | Match Status and Similarity carry the passed strings and are shown exactly when those strings are non-empty |
| EmbedLaws.DetectedTextField | main.py:129-131 | Detected Text is shown exactly when the `", "`-joined detections are non-empty; its value is a prefix of that string of length min(length, 1024) |
| Decimal.NatToString | main.py:93 | an age bound renders as a non-empty string of decimal digits that starts with `0` only for zero, so it has no leading zeros |
| Decimal.Fmt2 | main.py:94 | a percentage renders as decimal digits, a point and exactly two digits, and the whole part is either a single digit or does not start with `0` |
| Decimal.ParseNatToString | main.py:93 | the decimal text of an age bound reads back to the same number |
| Decimal.ParseFmt2RoundTrip | main.py:94 | the two-decimal rendering of a percentage reads back to the same value |
| Photos.Verdict | main.py:212-215 | the verdict is "Likely the same person" exactly when similarity is strictly above 90.00, and "Likely different people" otherwise, so 90.00 itself is different people |
| Photos.SelectSimilarity | main.py:204-209 | the similarity is the first face match's score, 0 when the match list is missing or empty, and a `KeyError` when the first match has no score |
| Photos.HandlePhotos | main.py:179-229 | no first photo gives the "attach a photo" error with no request. A second photo leads only to the comparison request, and unreadable bytes there fail before any request. Without a second photo no comparison is requested, and the requests are a prefix of labels, celebrities, faces, text. A card needs all four requests, or the comparison, and follows the posted files. The only error after files are posted is a missing key. |
| PhotosLaws.ComparisonEmbed | main.py:217-220 | the comparison data builds a card with exactly the fields Match Status (the verdict) and Similarity (the percentage with `%`) |
| PhotosLaws.ComparisonCard | main.py:189-220 | with two readable photos and a comparison reply, the run issues only the comparison request, posts two files, and shows exactly Match Status and Similarity |
| PhotosLaws.NoMatchIsDifferentPeople | main.py:204-219 | with no face match the card reads "Likely different people" and "0.00%" |
| PhotosLaws.SimilarityReadBack | main.py:219 | the Similarity text ends in `%`, and without it reads back to the similarity |
| PhotosLaws.SingleImageCard | main.py:222-233 | with one readable photo and complete replies, the run issues the four analysis requests in order, posts one file, shows the card built from the replies, and that card has no Match Status or Similarity field |
| PhotosLaws.SingleImageServiceFailure | main.py:44-55 | a failing analysis request ends the run: the requests issued are exactly those up to the failing one, no file is posted, and the failing request's error message is reported unchanged |
| PhotosLaws.ComparisonServiceFailure | main.py:201 | a comparison the service rejects issues only the comparison request, posts no file, and reports the service's message unchanged |
| PhotosLaws.ComparisonMissingSimilarity | main.py:204-206 | a first face match without `Similarity` raises `KeyError` ("Similarity") after the comparison request and before any file is posted |
| PhotosLaws.SingleImageUnreadable | main.py:223 | on the single-image path unreadable bytes are refused before any request is issued or file posted |
| PhotosLaws.SingleImageMissingKey | main.py:224-229 | with all four replies received, the first missing top-level key in the order Labels, CelebrityFaces, FaceDetails, TextDetections raises `KeyError` before any file is posted |

## Left out

- The chat client, command registration, `on_ready`, presence and the `tree` property wrapper (main.py:139-169). They are platform plumbing.
- `handle_errors` (main.py:146-152). The model keeps the failure in `ErrorCard`, with the service's own message for a service error and the key for a `KeyError`. It does not keep the fixed texts of the two `ValueError`s, the "AWS Service Error"/"Error" label or the colour of the error card.
- The boto3 calls `analyze_image`, `compare_faces_in_images` and `detect_text_in_image` (main.py:44-76). Their replies and errors are inputs in `ServiceReplies`. Credentials, region and transport are not modelled.
- File staging, `load_image_bytes`, `asyncio.sleep`, `discord.File` and loading the config at import time (main.py:21-42, 182-195). Each attachment becomes one readable/unreadable flag. Failures while saving or re-opening a file are not modelled.
- `defer` and the two follow-up sends. The model keeps only the number of files posted and the card or error card that follows.
- Photos.Verdict: similarities are hundredths, so a float similarity strictly between 90.00 and 90.01 cannot be represented at all. The source calls every such value the same person. Below about 90.005 it shows "90.00%", and from there up it shows "90.01%".
- Decimal.Fmt2: it renders an exact hundredths value. Python's rounding of a binary float to two decimals (round half to even) is not modelled.
- The chat platform's own limits on cards (field count, total size, other field values over 1024 characters) are enforced by its library when sending. They are not modelled. Only the explicit 1024-character cut of Detected Text is.
- Service values of other types (a non-string emotion `Type`, a non-integer age bound) are not modelled. An emotion without `Type` renders as `None`, as Python prints it.

=== FILE: decimal.dfy ===
/** Decimal rendering of the numbers the bot prints: `str(n)` for ages and
    `f"{x:.2f}"` for confidences and similarities. Percentages are fixed-point
    hundredths (9012 stands for 90.12), so `:.2f` is exact here. The readers
    `ParseNat` and `ParseFmt2` invert the two renderings, so distinct values
    never render to the same text. */
module Decimal {
  import opened Wrappers

  predicate IsDigit(c: char) { '0' <= c <= '9' }

  predicate AllDigits(s: string) { forall i :: 0 <= i < |s| ==> IsDigit(s[i]) }

  function DigitChar(d: nat): (c: char)
    requires d < 10
    ensures IsDigit(c) && c as int - '0' as int == d
  {
    ('0' as int + d) as char
  }

  function DigitValue(c: char): nat
    requires IsDigit(c)
  {
    c as int - '0' as int
  }

  /** `str(n)` for a non-negative integer: decimal digits, no leading zeros. */
  function NatToString(n: nat): (s: string)
    ensures |s| > 0 && AllDigits(s)
    ensures s[0] == '0' <==> n == 0
    ensures |s| == 1 || s[0] != '0'
    decreases n
  {
    if n < 10 then [DigitChar(n)] else NatToString(n / 10) + [DigitChar(n % 10)]
  }

  /** The value of a string of decimal digits (zero for the empty string). */
  function DigitsValue(s: string): nat
    requires AllDigits(s)
    decreases |s|
  {
    if |s| == 0 then 0 else DigitsValue(s[..|s| - 1]) * 10 + DigitValue(s[|s| - 1])
  }

  /** `int(s)` restricted to non-empty digit strings. */
  function ParseNat(s: string): Option<nat>
  {
    if |s| > 0 && AllDigits(s) then Some(DigitsValue(s)) else None
  }

  lemma {:induction false} ParseNatToString(n: nat)
    ensures ParseNat(NatToString(n)) == Some(n)
  {
    var s := NatToString(n);
    if n < 10 {
      assert s[..|s| - 1] == [];
      assert DigitsValue(s) == DigitValue(s[0]);
    } else {
      ParseNatToString(n / 10);
      assert s[..|s| - 1] == NatToString(n / 10);
      assert DigitsValue(s) == n / 10 * 10 + n % 10;
    }
  }

  /** `f"{h / 100:.2f}"` for a value `h` in hundredths. */
  function Fmt2(h: nat): (s: string)
    ensures |s| >= 4 && s[|s| - 3] == '.'
    ensures AllDigits(s[..|s| - 3]) && IsDigit(s[|s| - 2]) && IsDigit(s[|s| - 1])
    ensures |s| == 4 || s[0] != '0'
  {
    NatToString(h / 100) + "." + [DigitChar(h % 100 / 10), DigitChar(h % 10)]
  }

  /** Reads back a `:.2f` rendering as hundredths. */
  function ParseFmt2(s: string): Option<nat>
  {
    if |s| >= 3 && s[|s| - 3] == '.' && IsDigit(s[|s| - 2]) && IsDigit(s[|s| - 1]) then
      match ParseNat(s[..|s| - 3])
      case None => None
      case Some(w) => Some(w * 100 + DigitValue(s[|s| - 2]) * 10 + DigitValue(s[|s| - 1]))
    else None
  }

  /** The two-decimal rendering loses nothing: the number is read back exactly. */
  lemma ParseFmt2RoundTrip(h: nat)
    ensures ParseFmt2(Fmt2(h)) == Some(h)
  {
    var s := Fmt2(h);
    assert s[..|s| - 3] == NatToString(h / 100);
    ParseNatToString(h / 100);
    assert h % 100 == h % 100 / 10 * 10 + h % 10;
  }

  /** A rendering holds only digits and the decimal point, so no blank, newline or letter. */
  lemma Fmt2Chars(h: nat, c: char)
    requires c in Fmt2(h)
    ensures c == '.' || IsDigit(c)
  {
    var s := Fmt2(h);
    var i :| 0 <= i < |s| && s[i] == c;
    if i < |s| - 3 {
      assert s[..|s| - 3][i] == c;
    }
  }

  lemma Fmt2Zero()
    ensures Fmt2(0) == "0.00"
  {
  }
}

=== FILE: embed.dfy ===
/** The summary card: `build_embed` turns the keyword data of one request
    (single-image analysis or face comparison) into a titled, ordered list of
    display fields. */
module Embed {
  import opened Wrappers
  import opened Text
  import opened Decimal
  import opened Rekognition

  const Title := "Photo Results"

  const GenderName := "Gender"
  const AgeRangeName := "Age Range"
  const EmotionsName := "Emotions"
  const AttributesName := "Attributes"
  const ObjectsName := "Objects Detected"
  const CelebritiesName := "Celebrities"
  const MatchStatusName := "Match Status"
  const SimilarityName := "Similarity"
  const DetectedTextName := "Detected Text"

  /** The order in which fields can appear on the card. */
  const FieldOrder: seq<string> := [GenderName, AgeRangeName, EmotionsName, AttributesName,
    ObjectsName, CelebritiesName, MatchStatusName, SimilarityName, DetectedTextName]

  /** The yes/no attributes listed for the primary face, always all of them, in this order. */
  const Checklist: seq<string> := ["Sunglasses", "Eyeglasses", "Beard", "Mustache", "Smile"]

  /** Longest Detected Text value (the chat platform's limit on a field value). */
  const TextLimit: nat := 1024

  const Unknown := "Unknown"
  const ListSeparator := ", "

  datatype Field = Field(name: string, value: string)

  datatype Embed = Embed(title: string, fields: seq<Field>)

  /** The keyword arguments of `build_embed`; `None` is a key that was not passed. */
  datatype EmbedData = EmbedData(
    faceDetails: Option<seq<FaceDetail>>,
    labels: Option<seq<Label>>,
    celebrityFaces: Option<seq<Celebrity>>,
    faceMatchStatus: Option<string>,
    similarity: Option<string>,
    textDetections: Option<seq<TextDetection>>)
  {
    function Faces(): seq<FaceDetail> { faceDetails.GetOr([]) }
    function Labels(): seq<Label> { labels.GetOr([]) }
    function Celebrities(): seq<Celebrity> { celebrityFaces.GetOr([]) }
    function Texts(): seq<TextDetection> { textDetections.GetOr([]) }
  }

  // ---------------------------------------------------------------- the face fields

  function GenderText(face: FaceDetail): string
  {
    var g := face.gender.GetOr(Gender(None, None));
    g.value.GetOr(Unknown) + " (Confidence: " + Fmt2(g.confidence.GetOr(0)) + "%)"
  }

  /** One bound of the age range: its number, or the literal `Unknown`. */
  function BoundText(b: Option<nat>): string
  {
    match b
    case None => Unknown
    case Some(n) => NatToString(n)
  }

  function AgeRangeOf(face: FaceDetail): AgeRange
  {
    face.ageRange.GetOr(AgeRange(None, None))
  }

  function AgeRangeText(face: FaceDetail): string
  {
    var a := AgeRangeOf(face);
    BoundText(a.low) + " - " + BoundText(a.high)
  }

  /** An emotion without a `Type` renders as Python renders `None`. */
  function EmotionLine(e: Emotion): string
  {
    e.kind.GetOr("None") + " (" + Fmt2(e.confidence.GetOr(0)) + "%)"
  }

  function EmotionLines(face: FaceDetail): seq<string>
  {
    var es := face.emotions.GetOr([]);
    seq(|es|, i requires 0 <= i < |es| => EmotionLine(es[i]))
  }

  function AttributeOf(face: FaceDetail, name: string): BoolAttribute
  {
    if name in face.attributes then face.attributes[name] else BoolAttribute(None, None)
  }

  function AttributeLine(name: string, a: BoolAttribute): string
  {
    name + ": " + (if a.value.GetOr(false) then "Yes" else "No")
      + " (Confidence: " + Fmt2(a.confidence.GetOr(0)) + "%)"
  }

  function AttributeLines(face: FaceDetail): seq<string>
  {
    seq(|Checklist|, i requires 0 <= i < |Checklist| => AttributeLine(Checklist[i], AttributeOf(face, Checklist[i])))
  }

  /** A field that is added only when its value is a non-empty string (Python truthiness). */
  function OptionalField(name: string, value: string): seq<Field>
  {
    if value == "" then [] else [Field(name, value)]
  }

  function FaceFields(face: FaceDetail): seq<Field>
  {
    [Field(GenderName, GenderText(face)), Field(AgeRangeName, AgeRangeText(face))]
      + OptionalField(EmotionsName, Join(EmotionLines(face), "\n"))
      + [Field(AttributesName, Join(AttributeLines(face), "\n"))]
  }

  /** Only the first face is described. */
  function FaceSection(faces: seq<FaceDetail>): seq<Field>
  {
    if |faces| == 0 then [] else FaceFields(faces[0])
  }

  // ---------------------------------------------------------------- the list fields

  /** Names of the celebrities that carry one, in order; the others are dropped. */
  function CelebrityNames(cs: seq<Celebrity>): (names: seq<string>)
    ensures |names| <= |cs|
    ensures forall n :: n in names <==> exists i :: 0 <= i < |cs| && cs[i].name == Some(n)
  {
    if |cs| == 0 then []
    else
      var rest := CelebrityNames(cs[1..]);
      assert forall i :: 1 <= i < |cs| ==> cs[i] == cs[1..][i - 1];
      match cs[0].name
      case None => rest
      case Some(n) => [n] + rest
  }

  /** `[label['Name'] for label in labels]`. */
  function LabelNames(d: EmbedData): (names: Option<seq<string>>)
    ensures names.Some? <==> AllLabelsNamed(d)
    ensures names.Some? ==> |names.value| == |d.Labels()|
    ensures names.Some? ==> forall i :: 0 <= i < |d.Labels()| ==> names.value[i] == d.Labels()[i].name.value
  {
    var ls := d.Labels();
    var keys := seq(|ls|, i requires 0 <= i < |ls| => ls[i].name);
    assert forall i :: 0 <= i < |ls| ==> keys[i] == ls[i].name;
    AllSome(keys)
  }

  /** `[text['DetectedText'] for text in detections]`. */
  function TextStrings(d: EmbedData): (texts: Option<seq<string>>)
    ensures texts.Some? <==> AllTextsPresent(d)
    ensures texts.Some? ==> |texts.value| == |d.Texts()|
    ensures texts.Some? ==> forall i :: 0 <= i < |d.Texts()| ==> texts.value[i] == d.Texts()[i].detectedText.value
  {
    var ts := d.Texts();
    var keys := seq(|ts|, i requires 0 <= i < |ts| => ts[i].detectedText);
    assert forall i :: 0 <= i < |ts| ==> keys[i] == ts[i].detectedText;
    AllSome(keys)
  }

  predicate AllLabelsNamed(d: EmbedData)
  {
    forall i :: 0 <= i < |d.Labels()| ==> d.Labels()[i].name.Some?
  }

  predicate AllTextsPresent(d: EmbedData)
  {
    forall i :: 0 <= i < |d.Texts()| ==> d.Texts()[i].detectedText.Some?
  }

  /** `build_embed`. Fails with the missing key when a label has no `Name` or a
      text detection has no `DetectedText` (Python raises `KeyError`). */
  function BuildEmbed(d: EmbedData): (r: Result<Embed, string>)
    ensures r.Success? <==> AllLabelsNamed(d) && AllTextsPresent(d)
    ensures !AllLabelsNamed(d) ==> r == Failure("Name")
    ensures AllLabelsNamed(d) && !AllTextsPresent(d) ==> r == Failure("DetectedText")
    ensures r.Success? ==> r.value.title == Title
  {
    match LabelNames(d)
    case None => Failure("Name")
    case Some(labelNames) =>
      match TextStrings(d)
      case None => Failure("DetectedText")
      case Some(texts) =>
        Success(Embed(Title, FaceSection(d.Faces()) + ListSection(d, labelNames, texts)))
  }

  /** The fields after the face: objects, celebrities, match status, similarity, text.
      The Detected Text value is cut to `TextLimit` characters. */
  function ListSection(d: EmbedData, labelNames: seq<string>, texts: seq<string>): seq<Field>
  {
    OptionalField(ObjectsName, Join(labelNames, ListSeparator))
    + OptionalField(CelebritiesName, Join(CelebrityNames(d.Celebrities()), ListSeparator))
    + OptionalField(MatchStatusName, d.faceMatchStatus.GetOr(""))
    + OptionalField(SimilarityName, d.similarity.GetOr(""))
    + OptionalField(DetectedTextName, Prefix(Join(texts, ListSeparator), TextLimit))
  }
}

=== FILE: embed_laws.dfy ===
/** What the card promises: the fixed field order, the face fields drawn from the
    first face, the fixed attribute checklist, the defaults for missing keys, the
    filtering of nameless celebrities and the cut of the detected text. */
module EmbedLaws {
  import opened Wrappers
  import opened Text
  import opened Decimal
  import opened Rekognition
  import opened Embed

  /** Index of the first `x` in `xs`, or `|xs|` when `x` does not occur. */
  function Position(xs: seq<string>, x: string): (k: nat)
    ensures k <= |xs|
    ensures k < |xs| ==> xs[k] == x
    ensures x !in xs[..k]
  {
    if |xs| == 0 then 0
    else if xs[0] == x then 0
    else
      var k := Position(xs[1..], x);
      assert xs[..k + 1] == [xs[0]] + xs[1..][..k];
      1 + k
  }

  /** Position of a field name in `FieldOrder` (`|FieldOrder|` for any other name). */
  function Rank(name: string): nat
  {
    Position(FieldOrder, name)
  }

  /** Each name in `FieldOrder` ranks at its own index, since the nine names differ. */
  lemma RankIsPosition()
    ensures |FieldOrder| == 9
    ensures forall k :: 0 <= k < |FieldOrder| ==> Rank(FieldOrder[k]) == k
  {
    assert forall i, j :: 0 <= i < j < |FieldOrder| ==> FieldOrder[i] != FieldOrder[j];
    forall k | 0 <= k < |FieldOrder|
      ensures Rank(FieldOrder[k]) == k
    {
      assert FieldOrder[k] in FieldOrder[..k + 1];
    }
  }

  /** Every field has a known name and the names follow `FieldOrder` strictly. */
  predicate InFieldOrder(fs: seq<Field>)
  {
    && (forall i :: 0 <= i < |fs| ==> Rank(fs[i].name) < |FieldOrder|)
    && (forall i, j :: 0 <= i < j < |fs| ==> Rank(fs[i].name) < Rank(fs[j].name))
  }

  predicate RanksBelow(fs: seq<Field>, k: nat)
  {
    forall i :: 0 <= i < |fs| ==> Rank(fs[i].name) < k
  }

  predicate RanksFrom(fs: seq<Field>, k: nat)
  {
    forall i :: 0 <= i < |fs| ==> k <= Rank(fs[i].name)
  }

  predicate HasField(fs: seq<Field>, name: string)
  {
    exists i :: 0 <= i < |fs| && fs[i].name == name
  }

  /** The fields of a card that `BuildEmbed` produced. */
  function CardFields(d: EmbedData): seq<Field>
    requires AllLabelsNamed(d) && AllTextsPresent(d)
  {
    BuildEmbed(d).value.fields
  }

  function Lists(d: EmbedData): seq<Field>
    requires AllLabelsNamed(d) && AllTextsPresent(d)
  {
    ListSection(d, LabelNames(d).value, TextStrings(d).value)
  }

  lemma CardSplit(d: EmbedData)
    requires AllLabelsNamed(d) && AllTextsPresent(d)
    ensures CardFields(d) == FaceSection(d.Faces()) + Lists(d)
  {
  }

  lemma AppendOptional(fs: seq<Field>, name: string, value: string, lo: nat)
    requires InFieldOrder(fs) && RanksFrom(fs, lo)
    requires lo <= Rank(name) < |FieldOrder|
    requires RanksBelow(fs, Rank(name))
    ensures InFieldOrder(fs + OptionalField(name, value))
    ensures RanksFrom(fs + OptionalField(name, value), lo)
    ensures RanksBelow(fs + OptionalField(name, value), Rank(name) + 1)
  {
  }

  lemma OrderedConcat(a: seq<Field>, b: seq<Field>, k: nat)
    requires InFieldOrder(a) && InFieldOrder(b)
    requires RanksBelow(a, k) && RanksFrom(b, k)
    ensures InFieldOrder(a + b)
  {
  }

  lemma RankValues()
    ensures Rank(GenderName) == 0 && Rank(AgeRangeName) == 1
    ensures Rank(EmotionsName) == 2 && Rank(AttributesName) == 3
    ensures Rank(ObjectsName) == 4 && Rank(CelebritiesName) == 5
    ensures Rank(MatchStatusName) == 6 && Rank(SimilarityName) == 7
    ensures Rank(DetectedTextName) == 8
  {
    RankIsPosition();
    assert FieldOrder[0] == GenderName && FieldOrder[1] == AgeRangeName;
    assert FieldOrder[2] == EmotionsName && FieldOrder[3] == AttributesName;
    assert FieldOrder[4] == ObjectsName && FieldOrder[5] == CelebritiesName;
    assert FieldOrder[6] == MatchStatusName && FieldOrder[7] == SimilarityName;
    assert FieldOrder[8] == DetectedTextName;
  }

  lemma FaceFieldsInOrder(gender: string, age: string, emotions: string, attributes: string)
    ensures var fs := [Field(GenderName, gender), Field(AgeRangeName, age)]
      + OptionalField(EmotionsName, emotions) + [Field(AttributesName, attributes)];
      InFieldOrder(fs) && RanksBelow(fs, Rank(ObjectsName))
  {
    RankValues();
    var fs := [Field(GenderName, gender), Field(AgeRangeName, age)]
      + OptionalField(EmotionsName, emotions) + [Field(AttributesName, attributes)];
    if emotions == "" {
      assert fs == [Field(GenderName, gender), Field(AgeRangeName, age), Field(AttributesName, attributes)];
    } else {
      assert fs == [Field(GenderName, gender), Field(AgeRangeName, age),
        Field(EmotionsName, emotions), Field(AttributesName, attributes)];
    }
  }

  lemma FaceSectionInOrder(faces: seq<FaceDetail>)
    ensures InFieldOrder(FaceSection(faces))
    ensures RanksBelow(FaceSection(faces), Rank(ObjectsName))
  {
    if |faces| > 0 {
      var face := faces[0];
      FaceFieldsInOrder(GenderText(face), AgeRangeText(face),
        Join(EmotionLines(face), "\n"), Join(AttributeLines(face), "\n"));
    }
  }

  lemma {:induction false} ListsInOrder(d: EmbedData)
    requires AllLabelsNamed(d) && AllTextsPresent(d)
    ensures InFieldOrder(Lists(d))
    ensures RanksFrom(Lists(d), Rank(ObjectsName))
  {
    RankValues();
    var labelNames := LabelNames(d).value;
    var texts := TextStrings(d).value;
    var lo := Rank(ObjectsName);
    var f0: seq<Field> := [];
    var f1 := f0 + OptionalField(ObjectsName, Join(labelNames, ListSeparator));
    AppendOptional(f0, ObjectsName, Join(labelNames, ListSeparator), lo);
    var f2 := f1 + OptionalField(CelebritiesName, Join(CelebrityNames(d.Celebrities()), ListSeparator));
    AppendOptional(f1, CelebritiesName, Join(CelebrityNames(d.Celebrities()), ListSeparator), lo);
    var f3 := f2 + OptionalField(MatchStatusName, d.faceMatchStatus.GetOr(""));
    AppendOptional(f2, MatchStatusName, d.faceMatchStatus.GetOr(""), lo);
    var f4 := f3 + OptionalField(SimilarityName, d.similarity.GetOr(""));
    AppendOptional(f3, SimilarityName, d.similarity.GetOr(""), lo);
    var f5 := f4 + OptionalField(DetectedTextName, Prefix(Join(texts, ListSeparator), TextLimit));
    AppendOptional(f4, DetectedTextName, Prefix(Join(texts, ListSeparator), TextLimit), lo);
    assert f1 == OptionalField(ObjectsName, Join(labelNames, ListSeparator));
    assert Lists(d) == f5;
  }

  /** Fields come out in the fixed order Gender, Age Range, Emotions, Attributes,
      Objects Detected, Celebrities, Match Status, Similarity, Detected Text,
      whichever of them are present; so no name occurs twice. */
  lemma FieldsInOrder(d: EmbedData)
    requires AllLabelsNamed(d) && AllTextsPresent(d)
    ensures InFieldOrder(CardFields(d))
  {
    CardSplit(d);
    FaceSectionInOrder(d.Faces());
    ListsInOrder(d);
    OrderedConcat(FaceSection(d.Faces()), Lists(d), Rank(ObjectsName));
  }

  lemma AbsentFrom(fs: seq<Field>, name: string, k: nat)
    requires RanksFrom(fs, k) && Rank(name) < k
    ensures !HasField(fs, name)
  {
  }

  lemma HasFieldConcat(a: seq<Field>, b: seq<Field>, name: string)
    ensures HasField(a + b, name) <==> HasField(a, name) || HasField(b, name)
  {
    if HasField(a + b, name) {
      var i :| 0 <= i < |a + b| && (a + b)[i].name == name;
      if i >= |a| {
        assert b[i - |a|].name == name;
      }
    }
    if HasField(b, name) {
      var i :| 0 <= i < |b| && b[i].name == name;
      assert (a + b)[|a| + i].name == name;
    }
    if HasField(a, name) {
      var i :| 0 <= i < |a| && a[i].name == name;
      assert (a + b)[i].name == name;
    }
  }

  /** With no face detected there is no face field at all. */
  lemma NoFaceNoFaceFields(d: EmbedData)
    requires AllLabelsNamed(d) && AllTextsPresent(d)
    requires |d.Faces()| == 0
    ensures !HasField(CardFields(d), GenderName) && !HasField(CardFields(d), AgeRangeName)
    ensures !HasField(CardFields(d), EmotionsName) && !HasField(CardFields(d), AttributesName)
  {
    RankValues();
    CardSplit(d);
    ListsInOrder(d);
    assert CardFields(d) == Lists(d);
    AbsentFrom(Lists(d), GenderName, Rank(ObjectsName));
    AbsentFrom(Lists(d), AgeRangeName, Rank(ObjectsName));
    AbsentFrom(Lists(d), EmotionsName, Rank(ObjectsName));
    AbsentFrom(Lists(d), AttributesName, Rank(ObjectsName));
  }

  lemma EmotionsNonEmptyIff(face: FaceDetail)
    ensures Join(EmotionLines(face), "\n") != "" <==> |face.emotions.GetOr([])| > 0
  {
    var lines := EmotionLines(face);
    JoinEmptyIff(lines, "\n");
    if |lines| == 1 {
      assert |lines[0]| > 0;
    }
  }

  /** `line` is `head`, then the two-decimal rendering of `h` without leading zeros
      (so it reads back to `h` and no other text does), then `%)`. */
  predicate ConfidenceText(line: string, head: string, h: nat)
  {
    && StartsWith(line, head) && |head| + 2 <= |line| && EndsWith(line, "%)")
    && var number := line[|head|..|line| - 2];
    && ParseFmt2(number) == Some(h)
    && (|number| == 4 || number[0] != '0')
  }

  lemma ConfidenceTextOf(head: string, h: nat)
    ensures ConfidenceText(head + Fmt2(h) + "%)", head, h)
  {
    var line := head + Fmt2(h) + "%)";
    assert line[..|head|] == head;
    assert line[|line| - 2..] == "%)";
    assert line[|head|..|line| - 2] == Fmt2(h);
    ParseFmt2RoundTrip(h);
  }

  lemma EmotionLineAffixes(kind: string, c: string)
    ensures StartsWith(kind + " (" + c + "%)", kind + " (")
    ensures EndsWith(kind + " (" + c + "%)", " (" + c + "%)")
  {
    var t := kind + " (" + c + "%)";
    assert t == (kind + " (") + (c + "%)");
    StartsWithConcat(kind + " (", c + "%)");
    assert t == kind + (" (" + c + "%)");
    EndsWithConcat(kind, " (" + c + "%)");
  }

  lemma EmotionLineReadBack(e: Emotion)
    ensures ConfidenceText(EmotionLine(e), e.kind.GetOr("None") + " (", e.confidence.GetOr(0))
  {
    var head := e.kind.GetOr("None") + " (";
    assert EmotionLine(e) == head + Fmt2(e.confidence.GetOr(0)) + "%)";
    ConfidenceTextOf(head, e.confidence.GetOr(0));
  }

  /** One emotion line is exactly the emotion's type (`None` when missing), ` (`, its
      two-decimal confidence (0.00 when missing) and `%)`. */
  lemma EmotionLineShape(e: Emotion)
    ensures StartsWith(EmotionLine(e), e.kind.GetOr("None") + " (")
    ensures EndsWith(EmotionLine(e), " (" + Fmt2(e.confidence.GetOr(0)) + "%)")
    ensures e.kind.None? ==> StartsWith(EmotionLine(e), "None (")
    ensures e.confidence.None? ==> EndsWith(EmotionLine(e), " (0.00%)")
    ensures '\n' !in EmotionLine(e) <==> '\n' !in e.kind.GetOr("None")
    ensures ConfidenceText(EmotionLine(e), e.kind.GetOr("None") + " (", e.confidence.GetOr(0))
  {
    var kind := e.kind.GetOr("None");
    var c := Fmt2(e.confidence.GetOr(0));
    assert EmotionLine(e) == kind + " (" + c + "%)";
    EmotionLineAffixes(kind, c);
    EmotionLineReadBack(e);
    Fmt2Zero();
    Fmt2NoNewline(e.confidence.GetOr(0));
    NewlineAfter(kind, c);
  }

  lemma Fmt2NoNewline(h: nat)
    ensures '\n' !in Fmt2(h)
  {
    if '\n' in Fmt2(h) {
      Fmt2Chars(h, '\n');
    }
  }

  /** With no newline in `c`, the line has a newline exactly when `kind` has one. */
  lemma NewlineAfter(kind: string, c: string)
    requires '\n' !in c
    ensures '\n' !in kind + " (" + c + "%)" <==> '\n' !in kind
  {
    var tail := " (" + c + "%)";
    assert kind + " (" + c + "%)" == kind + tail;
  }

  /** The Emotions value has one line per emotion, in the service's order: exactly the
      emotion's type (`None` when missing) and its confidence (0.00 when missing).
      When there are emotions and no type contains a newline, splitting the value
      at newlines gives the lines back. */
  lemma EmotionLinesShape(face: FaceDetail)
    ensures var es := face.emotions.GetOr([]);
      && |EmotionLines(face)| == |es|
      && (forall i :: 0 <= i < |es| ==>
        && StartsWith(EmotionLines(face)[i], es[i].kind.GetOr("None") + " (")
        && EndsWith(EmotionLines(face)[i], " (" + Fmt2(es[i].confidence.GetOr(0)) + "%)")
        && (es[i].kind.None? ==> StartsWith(EmotionLines(face)[i], "None ("))
        && (es[i].confidence.None? ==> EndsWith(EmotionLines(face)[i], " (0.00%)"))
        && ConfidenceText(EmotionLines(face)[i], es[i].kind.GetOr("None") + " (", es[i].confidence.GetOr(0)))
      && (|es| > 0 && (forall i :: 0 <= i < |es| ==> '\n' !in es[i].kind.GetOr("None")) ==>
        Split(Join(EmotionLines(face), "\n"), '\n') == EmotionLines(face))
  {
    var es := face.emotions.GetOr([]);
    var lines := EmotionLines(face);
    forall i | 0 <= i < |es|
      ensures StartsWith(lines[i], es[i].kind.GetOr("None") + " (")
      ensures EndsWith(lines[i], " (" + Fmt2(es[i].confidence.GetOr(0)) + "%)")
      ensures es[i].kind.None? ==> StartsWith(lines[i], "None (")
      ensures es[i].confidence.None? ==> EndsWith(lines[i], " (0.00%)")
      ensures '\n' !in lines[i] <==> '\n' !in es[i].kind.GetOr("None")
      ensures ConfidenceText(lines[i], es[i].kind.GetOr("None") + " (", es[i].confidence.GetOr(0))
    {
      EmotionLineShape(es[i]);
    }
    if |es| > 0 && forall i :: 0 <= i < |es| ==> '\n' !in es[i].kind.GetOr("None") {
      SplitJoin(lines, '\n');
    }
  }

  /** With a face detected, Gender, Age Range and Attributes describe the first face,
      and Emotions is shown exactly when that face has emotions. */
  lemma FirstFaceFields(d: EmbedData)
    requires AllLabelsNamed(d) && AllTextsPresent(d)
    requires |d.Faces()| > 0
    ensures var face := d.Faces()[0];
      && Field(GenderName, GenderText(face)) in CardFields(d)
      && Field(AgeRangeName, AgeRangeText(face)) in CardFields(d)
      && Field(AttributesName, Join(AttributeLines(face), "\n")) in CardFields(d)
      && (HasField(CardFields(d), EmotionsName) <==> |face.emotions.GetOr([])| > 0)
      && (|face.emotions.GetOr([])| > 0 ==> Field(EmotionsName, Join(EmotionLines(face), "\n")) in CardFields(d))
  {
    RankValues();
    var face := d.Faces()[0];
    var fs := FaceFields(face);
    CardSplit(d);
    ListsInOrder(d);
    EmotionsNonEmptyIff(face);
    assert FaceSection(d.Faces()) == fs;
    HasFieldConcat(fs, Lists(d), EmotionsName);
    AbsentFrom(Lists(d), EmotionsName, Rank(ObjectsName));
    var emotions := Join(EmotionLines(face), "\n");
    if emotions == "" {
      assert !HasField(fs, EmotionsName);
    } else {
      assert fs[2] == Field(EmotionsName, emotions);
      assert fs[2] in CardFields(d);
    }
  }

  /** Faces after the first never influence the card. */
  lemma FirstFaceOnly(d: EmbedData, faces: seq<FaceDetail>)
    requires |d.Faces()| > 0 && |faces| > 0 && faces[0] == d.Faces()[0]
    ensures BuildEmbed(d.(faceDetails := Some(faces))) == BuildEmbed(d)
  {
  }

  /** Yes/no attributes outside the checklist never influence the card. */
  lemma OtherAttributesIgnored(face: FaceDetail, key: string, a: BoolAttribute)
    requires key !in Checklist
    ensures FaceFields(face.(attributes := face.attributes[key := a])) == FaceFields(face)
  {
    var face' := face.(attributes := face.attributes[key := a]);
    assert forall i :: 0 <= i < |Checklist| ==> AttributeOf(face', Checklist[i]) == AttributeOf(face, Checklist[i]);
    assert AttributeLines(face') == AttributeLines(face);
  }

  lemma NoNewlineInAttributeLine(name: string, a: BoolAttribute)
    requires '\n' !in name
    ensures '\n' !in AttributeLine(name, a)
  {
    var c := Fmt2(a.confidence.GetOr(0));
    if '\n' in c {
      Fmt2Chars(a.confidence.GetOr(0), '\n');
    }
  }

  lemma AttributeLineConfidence(name: string, a: BoolAttribute)
    ensures EndsWith(AttributeLine(name, a), " (Confidence: " + Fmt2(a.confidence.GetOr(0)) + "%)")
    ensures a.confidence.None? ==> EndsWith(AttributeLine(name, a), " (Confidence: 0.00%)")
  {
    var answer := name + ": " + (if a.value.GetOr(false) then "Yes" else "No");
    var tail := " (Confidence: " + Fmt2(a.confidence.GetOr(0)) + "%)";
    assert AttributeLine(name, a) == answer + tail;
    EndsWithConcat(answer, tail);
    Fmt2Zero();
  }

  lemma AnswerPrefix(name: string, answer: string, rest: string)
    requires answer == "Yes" || answer == "No"
    ensures StartsWith(name + ": " + answer + rest, name + ": ")
    ensures StartsWith(name + ": " + answer + rest, name + ": Yes") <==> answer == "Yes"
  {
    var head := name + ": ";
    var line := name + ": " + answer + rest;
    assert line == head + (answer + rest);
    StartsWithConcat(head, answer + rest);
    assert line[|head|] == answer[0];
    if answer == "Yes" {
      assert line == (name + ": Yes") + rest;
      StartsWithConcat(name + ": Yes", rest);
    } else {
      assert (name + ": Yes")[|head|] == 'Y';
    }
  }

  lemma HeadJoin(name: string, answer: string)
    requires answer == "Yes" || answer == "No"
    ensures answer == "Yes" ==> name + ": " + answer + " (Confidence: " == name + ": Yes (Confidence: "
    ensures answer == "No" ==> name + ": " + answer + " (Confidence: " == name + ": No (Confidence: "
  {
  }

  /** A checklist line is exactly `<name>: Yes` for a true value and `<name>: No`
      otherwise, then ` (Confidence: `, the two-decimal confidence (0.00 when the
      service gave none) and `%)`. */
  lemma AttributeLineReadBack(name: string, a: BoolAttribute)
    ensures a.value == Some(true) ==>
      ConfidenceText(AttributeLine(name, a), name + ": Yes (Confidence: ", a.confidence.GetOr(0))
    ensures a.value != Some(true) ==>
      ConfidenceText(AttributeLine(name, a), name + ": No (Confidence: ", a.confidence.GetOr(0))
  {
    var answer := if a.value.GetOr(false) then "Yes" else "No";
    var head := name + ": " + answer + " (Confidence: ";
    ConfidenceTextOf(head, a.confidence.GetOr(0));
    HeadJoin(name, answer);
  }

  /** One checklist line names its attribute, says Yes exactly for a true value and
      No for any other, and ends with the attribute's confidence (0.00 when the
      service gave none). */
  lemma AttributeLineShape(name: string, a: BoolAttribute)
    ensures StartsWith(AttributeLine(name, a), name + ": ")
    ensures StartsWith(AttributeLine(name, a), name + ": Yes") <==> a.value == Some(true)
    ensures EndsWith(AttributeLine(name, a), " (Confidence: " + Fmt2(a.confidence.GetOr(0)) + "%)")
    ensures a.confidence.None? ==> EndsWith(AttributeLine(name, a), " (Confidence: 0.00%)")
    ensures a.value == Some(true) ==>
      ConfidenceText(AttributeLine(name, a), name + ": Yes (Confidence: ", a.confidence.GetOr(0))
    ensures a.value != Some(true) ==>
      ConfidenceText(AttributeLine(name, a), name + ": No (Confidence: ", a.confidence.GetOr(0))
  {
    var answer := if a.value.GetOr(false) then "Yes" else "No";
    var rest := " (Confidence: " + Fmt2(a.confidence.GetOr(0)) + "%)";
    assert AttributeLine(name, a) == name + ": " + answer + rest;
    AnswerPrefix(name, answer, rest);
    AttributeLineConfidence(name, a);
    AttributeLineReadBack(name, a);
  }

  /** An attribute the service left out reads `No` at confidence 0.00. */
  lemma AttributeLineDefault(name: string)
    ensures AttributeLine(name, BoolAttribute(None, None)) == name + ": No (Confidence: 0.00%)"
  {
    Fmt2Zero();
  }

  /** The Attributes value is exactly five lines, one per checklist entry in checklist
      order (Sunglasses, Eyeglasses, Beard, Mustache, Smile); each says Yes exactly when
      the service reported the attribute as true and No otherwise, followed only by its
      confidence (0.00 when none was given), and one the service left out reads `No` at confidence 0.00
      rather than being omitted. */
  lemma AttributeChecklist(face: FaceDetail)
    ensures |Split(Join(AttributeLines(face), "\n"), '\n')| == |Checklist| == 5
    ensures forall i :: 0 <= i < |Checklist| ==>
      var line := Split(Join(AttributeLines(face), "\n"), '\n')[i];
      && StartsWith(line, Checklist[i] + ": ")
      && (StartsWith(line, Checklist[i] + ": Yes") <==> AttributeOf(face, Checklist[i]).value == Some(true))
      && EndsWith(line, " (Confidence: " + Fmt2(AttributeOf(face, Checklist[i]).confidence.GetOr(0)) + "%)")
      && (AttributeOf(face, Checklist[i]).confidence.None? ==> EndsWith(line, " (Confidence: 0.00%)"))
      && (AttributeOf(face, Checklist[i]).value == Some(true) ==>
        ConfidenceText(line, Checklist[i] + ": Yes (Confidence: ", AttributeOf(face, Checklist[i]).confidence.GetOr(0)))
      && (AttributeOf(face, Checklist[i]).value != Some(true) ==>
        ConfidenceText(line, Checklist[i] + ": No (Confidence: ", AttributeOf(face, Checklist[i]).confidence.GetOr(0)))
      && (Checklist[i] !in face.attributes ==> line == Checklist[i] + ": No (Confidence: 0.00%)")
  {
    var attrs := AttributeLines(face);
    assert forall i :: 0 <= i < |Checklist| ==> '\n' !in Checklist[i];
    forall i | 0 <= i < |attrs|
      ensures '\n' !in attrs[i]
    {
      NoNewlineInAttributeLine(Checklist[i], AttributeOf(face, Checklist[i]));
    }
    SplitJoin(attrs, '\n');
    forall i | 0 <= i < |Checklist|
      ensures StartsWith(attrs[i], Checklist[i] + ": ")
      ensures StartsWith(attrs[i], Checklist[i] + ": Yes") <==> AttributeOf(face, Checklist[i]).value == Some(true)
      ensures EndsWith(attrs[i], " (Confidence: " + Fmt2(AttributeOf(face, Checklist[i]).confidence.GetOr(0)) + "%)")
      ensures AttributeOf(face, Checklist[i]).confidence.None? ==> EndsWith(attrs[i], " (Confidence: 0.00%)")
      ensures AttributeOf(face, Checklist[i]).value == Some(true) ==>
        ConfidenceText(attrs[i], Checklist[i] + ": Yes (Confidence: ", AttributeOf(face, Checklist[i]).confidence.GetOr(0))
      ensures AttributeOf(face, Checklist[i]).value != Some(true) ==>
        ConfidenceText(attrs[i], Checklist[i] + ": No (Confidence: ", AttributeOf(face, Checklist[i]).confidence.GetOr(0))
      ensures Checklist[i] !in face.attributes ==> attrs[i] == Checklist[i] + ": No (Confidence: 0.00%)"
    {
      AttributeLineShape(Checklist[i], AttributeOf(face, Checklist[i]));
      AttributeLineDefault(Checklist[i]);
    }
  }

  /** Reads one bound of an Age Range rendering back: `Unknown` is a missing bound. */
  function ParseBound(s: string): Option<Option<nat>>
  {
    if s == Unknown then Some(None)
    else
      match ParseNat(s)
      case None => None
      case Some(n) => Some(Some(n))
  }

  /** Reads an Age Range rendering `"<low> - <high>"` back into its bounds. */
  function ParseAgeRange(s: string): Option<AgeRange>
  {
    var k := IndexOf(s, ' ');
    if k + 3 <= |s| && s[k..k + 3] == " - " then
      match (ParseBound(s[..k]), ParseBound(s[k + 3..]))
      case (Some(low), Some(high)) => Some(AgeRange(low, high))
      case _ => None
    else None
  }

  lemma BoundReadBack(b: Option<nat>)
    ensures ParseBound(BoundText(b)) == Some(b)
    ensures ' ' !in BoundText(b)
  {
    if b.Some? {
      var s := NatToString(b.value);
      assert IsDigit(s[0]);
      assert s != Unknown by { assert !IsDigit(Unknown[0]); }
      ParseNatToString(b.value);
    }
  }

  lemma ParseAgeRangeOf(lo: string, hi: string)
    requires ' ' !in lo
    requires ParseBound(lo).Some? && ParseBound(hi).Some?
    ensures ParseAgeRange(lo + " - " + hi) == Some(AgeRange(ParseBound(lo).value, ParseBound(hi).value))
  {
    var s := lo + " - " + hi;
    assert s == lo + (" - " + hi);
    IndexOfAfter(lo, " - " + hi, ' ');
    assert s[..|lo|] == lo;
    assert s[|lo|..|lo| + 3] == " - ";
    assert s[|lo| + 3..] == hi;
  }

  /** Age Range shows each bound in its own position, the literal `Unknown` for a
      missing one (never a number), and the rendering determines both bounds. */
  lemma AgeRangeReadBack(face: FaceDetail)
    ensures ParseAgeRange(AgeRangeText(face)) == Some(AgeRangeOf(face))
    ensures AgeRangeOf(face).low.None? ==> StartsWith(AgeRangeText(face), Unknown + " - ")
    ensures AgeRangeOf(face).high.None? ==> EndsWith(AgeRangeText(face), " - " + Unknown)
  {
    var a := AgeRangeOf(face);
    var lo, hi := BoundText(a.low), BoundText(a.high);
    BoundReadBack(a.low);
    BoundReadBack(a.high);
    ParseAgeRangeOf(lo, hi);
    StartsWithConcat(lo + " - ", hi);
    EndsWithConcat(lo, " - " + hi);
    assert lo + " - " + hi == lo + (" - " + hi);
  }

  lemma ConfidenceAffixes(v: string, c: string)
    ensures StartsWith(v + " (Confidence: " + c + "%)", v + " (Confidence: ")
    ensures EndsWith(v + " (Confidence: " + c + "%)", " (Confidence: " + c + "%)")
  {
    var t := v + " (Confidence: " + c + "%)";
    assert t == (v + " (Confidence: ") + (c + "%)");
    StartsWithConcat(v + " (Confidence: ", c + "%)");
    assert t == v + (" (Confidence: " + c + "%)");
    EndsWithConcat(v, " (Confidence: " + c + "%)");
  }

  /** The Gender field shows the reported gender (`Unknown` when missing) followed by
      its two-decimal confidence (0.00 when missing). */
  lemma GenderShape(face: FaceDetail)
    ensures var g := face.gender.GetOr(Gender(None, None));
      && StartsWith(GenderText(face), g.value.GetOr(Unknown) + " (Confidence: ")
      && EndsWith(GenderText(face), " (Confidence: " + Fmt2(g.confidence.GetOr(0)) + "%)")
  {
    var g := face.gender.GetOr(Gender(None, None));
    ConfidenceAffixes(g.value.GetOr(Unknown), Fmt2(g.confidence.GetOr(0)));
  }

  /** The confidence can be read back from the Gender text by stripping the known
      prefix and the `%)` suffix. */
  lemma GenderConfidenceReadBack(face: FaceDetail)
    ensures var g := face.gender.GetOr(Gender(None, None));
      ConfidenceText(GenderText(face), g.value.GetOr(Unknown) + " (Confidence: ", g.confidence.GetOr(0))
  {
    var g := face.gender.GetOr(Gender(None, None));
    var head := g.value.GetOr(Unknown) + " (Confidence: ";
    assert GenderText(face) == head + Fmt2(g.confidence.GetOr(0)) + "%)";
    ConfidenceTextOf(head, g.confidence.GetOr(0));
  }

  /** A missing gender reads `Unknown` at confidence 0.00. */
  lemma GenderMissing(face: FaceDetail)
    requires face.gender.None?
    ensures GenderText(face) == "Unknown (Confidence: 0.00%)"
  {
    Fmt2Zero();
    assert GenderText(face) == Unknown + " (Confidence: " + "0.00" + "%)";
  }

  /** A gender without a value reads `Unknown`. */
  lemma GenderValueMissing(face: FaceDetail)
    requires face.gender.Some? && face.gender.value.value.None?
    ensures StartsWith(GenderText(face), "Unknown (Confidence: ")
  {
    var g := face.gender.value;
    ConfidenceAffixes(Unknown, Fmt2(g.confidence.GetOr(0)));
    assert Unknown + " (Confidence: " == "Unknown (Confidence: ";
  }

  /** A gender without a confidence reads 0.00. */
  lemma GenderConfidenceMissing(face: FaceDetail)
    requires face.gender.Some? && face.gender.value.confidence.None?
    ensures EndsWith(GenderText(face), " (Confidence: 0.00%)")
  {
    Fmt2Zero();
    var g := face.gender.value;
    ConfidenceAffixes(g.value.GetOr(Unknown), Fmt2(0));
    assert " (Confidence: " + Fmt2(0) + "%)" == " (Confidence: 0.00%)";
  }

  lemma HasFieldIffMember(fs: seq<Field>, name: string)
    ensures HasField(fs, name) <==> exists v :: Field(name, v) in fs
  {
    if HasField(fs, name) {
      var i :| 0 <= i < |fs| && fs[i].name == name;
      assert Field(name, fs[i].value) == fs[i];
    }
  }

  /** A field named after the face fields can only come from the list section. */
  lemma ListFieldInCard(d: EmbedData)
    requires AllLabelsNamed(d) && AllTextsPresent(d)
    ensures forall f: Field :: Rank(f.name) >= Rank(ObjectsName) ==> (f in CardFields(d) <==> f in Lists(d))
  {
    RankValues();
    CardSplit(d);
    FaceSectionInOrder(d.Faces());
  }

  /** In five optional fields with distinct names, each name carries its own value. */
  lemma OptionalMembers(objects: string, celebrities: string, status: string, similarity: string, text: string)
    ensures var fs := OptionalField(ObjectsName, objects) + OptionalField(CelebritiesName, celebrities)
      + OptionalField(MatchStatusName, status) + OptionalField(SimilarityName, similarity)
      + OptionalField(DetectedTextName, text);
      && (forall v :: Field(ObjectsName, v) in fs <==> v == objects && v != "")
      && (forall v :: Field(CelebritiesName, v) in fs <==> v == celebrities && v != "")
      && (forall v :: Field(MatchStatusName, v) in fs <==> v == status && v != "")
      && (forall v :: Field(SimilarityName, v) in fs <==> v == similarity && v != "")
      && (forall v :: Field(DetectedTextName, v) in fs <==> v == text && v != "")
  {
    var o := OptionalField(ObjectsName, objects);
    var c := OptionalField(CelebritiesName, celebrities);
    var m := OptionalField(MatchStatusName, status);
    var s := OptionalField(SimilarityName, similarity);
    var t := OptionalField(DetectedTextName, text);
    assert forall f :: f in o ==> f.name == ObjectsName;
    assert forall f :: f in c ==> f.name == CelebritiesName;
    assert forall f :: f in m ==> f.name == MatchStatusName;
    assert forall f :: f in s ==> f.name == SimilarityName;
    assert forall f :: f in t ==> f.name == DetectedTextName;
  }

  /** Which list-section field carries which value. */
  lemma ListsMembers(d: EmbedData)
    requires AllLabelsNamed(d) && AllTextsPresent(d)
    ensures forall v :: Field(ObjectsName, v) in Lists(d) <==>
      v == Join(LabelNames(d).value, ListSeparator) && v != ""
    ensures forall v :: Field(CelebritiesName, v) in Lists(d) <==>
      v == Join(CelebrityNames(d.Celebrities()), ListSeparator) && v != ""
    ensures forall v :: Field(MatchStatusName, v) in Lists(d) <==> d.faceMatchStatus == Some(v) && v != ""
    ensures forall v :: Field(SimilarityName, v) in Lists(d) <==> d.similarity == Some(v) && v != ""
    ensures forall v :: Field(DetectedTextName, v) in Lists(d) <==>
      var joined := Join(TextStrings(d).value, ListSeparator);
      joined != "" && v == Prefix(joined, TextLimit)
  {
    var joined := Join(TextStrings(d).value, ListSeparator);
    OptionalMembers(Join(LabelNames(d).value, ListSeparator), Join(CelebrityNames(d.Celebrities()), ListSeparator),
      d.faceMatchStatus.GetOr(""), d.similarity.GetOr(""), Prefix(joined, TextLimit));
    assert Prefix(joined, TextLimit) != "" <==> joined != "";
  }

  /** Objects Detected holds the `", "`-joined label names, and is shown exactly when
      that string is non-empty: two labels or more, or one with a non-empty name. */
  lemma ObjectsField(d: EmbedData)
    requires AllLabelsNamed(d) && AllTextsPresent(d)
    ensures forall v :: Field(ObjectsName, v) in CardFields(d) <==>
      v == Join(LabelNames(d).value, ListSeparator) && v != ""
    ensures HasField(CardFields(d), ObjectsName) <==>
      |d.Labels()| >= 2 || (|d.Labels()| == 1 && d.Labels()[0].name.value != "")
  {
    RankValues();
    ListFieldInCard(d);
    ListsMembers(d);
    HasFieldIffMember(CardFields(d), ObjectsName);
    JoinEmptyIff(LabelNames(d).value, ListSeparator);
  }

  lemma {:induction false} CelebrityNamesConcat(a: seq<Celebrity>, b: seq<Celebrity>)
    ensures CelebrityNames(a + b) == CelebrityNames(a) + CelebrityNames(b)
  {
    if |a| == 0 {
      assert a + b == b;
    } else {
      assert (a + b)[1..] == a[1..] + b;
      CelebrityNamesConcat(a[1..], b);
    }
  }

  /** `names` are the names of the entries at the strictly increasing positions `idx`. */
  predicate Picks(cs: seq<Celebrity>, names: seq<string>, idx: seq<nat>)
  {
    && |idx| == |names|
    && (forall k :: 0 <= k < |idx| ==> idx[k] < |cs| && cs[idx[k]].name == Some(names[k]))
    && (forall k, l :: 0 <= k < l < |idx| ==> idx[k] < idx[l])
  }

  /** Every named entry's position is among `idx`. */
  predicate CoversNamed(cs: seq<Celebrity>, idx: seq<nat>)
  {
    forall i :: 0 <= i < |cs| && cs[i].name.Some? ==> i in idx
  }

  /** `names` are the names of the named entries, in order, duplicates kept. */
  predicate NamedSelection(cs: seq<Celebrity>, names: seq<string>, idx: seq<nat>)
  {
    Picks(cs, names, idx) && CoversNamed(cs, idx)
  }

  function Shift(idx: seq<nat>): (r: seq<nat>)
    ensures |r| == |idx|
    ensures forall k :: 0 <= k < |idx| ==> r[k] == idx[k] + 1
  {
    seq(|idx|, k requires 0 <= k < |idx| => idx[k] + 1)
  }

  lemma PicksShift(c: Celebrity, tail: seq<Celebrity>, names: seq<string>, idx: seq<nat>)
    requires Picks(tail, names, idx)
    ensures Picks([c] + tail, names, Shift(idx))
    ensures forall k :: 0 <= k < |idx| ==> Shift(idx)[k] >= 1
  {
    var cs := [c] + tail;
    assert forall i :: 1 <= i < |cs| ==> cs[i] == tail[i - 1];
  }

  lemma PicksPrepend(cs: seq<Celebrity>, n: string, names: seq<string>, idx: seq<nat>)
    requires Picks(cs, names, idx) && |cs| > 0 && cs[0].name == Some(n)
    requires forall k :: 0 <= k < |idx| ==> idx[k] >= 1
    ensures Picks(cs, [n] + names, [0] + idx)
  {
    var all := [0] + idx;
    var ns := [n] + names;
    assert forall k :: 1 <= k < |all| ==> all[k] == idx[k - 1] && ns[k] == names[k - 1];
  }

  lemma PicksCons(c: Celebrity, tail: seq<Celebrity>, names: seq<string>, idx: seq<nat>)
    requires Picks(tail, names, idx)
    ensures Picks([c] + tail, names, Shift(idx))
    ensures c.name.Some? ==> Picks([c] + tail, [c.name.value] + names, [0] + Shift(idx))
  {
    PicksShift(c, tail, names, idx);
    if c.name.Some? {
      PicksPrepend([c] + tail, c.name.value, names, Shift(idx));
    }
  }

  lemma CoversCons(c: Celebrity, tail: seq<Celebrity>, idx: seq<nat>)
    requires CoversNamed(tail, idx)
    ensures c.name.None? ==> CoversNamed([c] + tail, Shift(idx))
    ensures CoversNamed([c] + tail, [0] + Shift(idx))
  {
    var cs := [c] + tail;
    forall i | 1 <= i < |cs| && cs[i].name.Some?
      ensures i in Shift(idx)
    {
      assert cs[i] == tail[i - 1];
      var k :| 0 <= k < |idx| && idx[k] == i - 1;
      assert Shift(idx)[k] == i;
    }
    assert forall i :: i in Shift(idx) ==> i in [0] + Shift(idx);
  }

  lemma CelebrityNamesUnfold(cs: seq<Celebrity>)
    requires |cs| > 0
    ensures cs[0].name.Some? ==> CelebrityNames(cs) == [cs[0].name.value] + CelebrityNames(cs[1..])
    ensures cs[0].name.None? ==> CelebrityNames(cs) == CelebrityNames(cs[1..])
  {
  }

  /** The positions of the named entries of `[c] + tail`, given those of `tail`. */
  function ConsIdx(c: Celebrity, idx: seq<nat>): seq<nat>
  {
    if c.name.Some? then [0] + Shift(idx) else Shift(idx)
  }

  lemma SelectionStep(cs: seq<Celebrity>, idx: seq<nat>)
    requires |cs| > 0 && NamedSelection(cs[1..], CelebrityNames(cs[1..]), idx)
    ensures NamedSelection(cs, CelebrityNames(cs), ConsIdx(cs[0], idx))
  {
    var names := CelebrityNames(cs[1..]);
    PicksCons(cs[0], cs[1..], names, idx);
    CoversCons(cs[0], cs[1..], idx);
    CelebrityNamesUnfold(cs);
    assert [cs[0]] + cs[1..] == cs;
  }

  /** The name list keeps every named entry, in the order of the entries. */
  lemma {:induction false} CelebrityNamesInOrder(cs: seq<Celebrity>)
    ensures exists idx :: NamedSelection(cs, CelebrityNames(cs), idx)
  {
    if |cs| == 0 {
      assert CelebrityNames(cs) == [];
      assert NamedSelection(cs, CelebrityNames(cs), []);
    } else {
      CelebrityNamesInOrder(cs[1..]);
      var idx :| NamedSelection(cs[1..], CelebrityNames(cs[1..]), idx);
      SelectionStep(cs, idx);
    }
  }

  /** A celebrity entry without a name is dropped: it contributes nothing to the names. */
  lemma NamelessCelebrityDropped(a: seq<Celebrity>, b: seq<Celebrity>)
    ensures CelebrityNames(a + [Celebrity(None)] + b) == CelebrityNames(a + b)
  {
    CelebrityNamesConcat(a + [Celebrity(None)], b);
    CelebrityNamesConcat(a, [Celebrity(None)]);
    CelebrityNamesConcat(a, b);
    assert CelebrityNames([Celebrity(None)]) == [];
  }

  /** Inserting a nameless celebrity anywhere leaves the card unchanged. */
  lemma NamelessCelebrityIgnored(d: EmbedData, a: seq<Celebrity>, b: seq<Celebrity>)
    ensures BuildEmbed(d.(celebrityFaces := Some(a + [Celebrity(None)] + b)))
      == BuildEmbed(d.(celebrityFaces := Some(a + b)))
  {
    NamelessCelebrityDropped(a, b);
  }

  lemma CelebrityJoinNonEmpty(cs: seq<Celebrity>)
    ensures Join(CelebrityNames(cs), ListSeparator) != "" <==>
      || |CelebrityNames(cs)| >= 2
      || exists i :: 0 <= i < |cs| && cs[i].name.Some? && cs[i].name.value != ""
  {
    var names := CelebrityNames(cs);
    JoinEmptyIff(names, ListSeparator);
    if |names| == 1 {
      assert names[0] in names;
      if names[0] != "" {
        var i :| 0 <= i < |cs| && cs[i].name == Some(names[0]);
      }
    }
  }

  /** Celebrities holds the `", "`-joined names of the named entries, and is shown
      exactly when that string is non-empty: two named entries or more, or one
      with a non-empty name. */
  lemma CelebritiesField(d: EmbedData)
    requires AllLabelsNamed(d) && AllTextsPresent(d)
    ensures forall v :: Field(CelebritiesName, v) in CardFields(d) <==>
      v == Join(CelebrityNames(d.Celebrities()), ListSeparator) && v != ""
    ensures HasField(CardFields(d), CelebritiesName) <==>
      || |CelebrityNames(d.Celebrities())| >= 2
      || exists i :: 0 <= i < |d.Celebrities()| && d.Celebrities()[i].name.Some? && d.Celebrities()[i].name.value != ""
  {
    RankValues();
    ListFieldInCard(d);
    ListsMembers(d);
    HasFieldIffMember(CardFields(d), CelebritiesName);
    CelebrityJoinNonEmpty(d.Celebrities());
  }

  /** Match Status and Similarity are the passed strings, shown when non-empty. */
  lemma MatchFields(d: EmbedData)
    requires AllLabelsNamed(d) && AllTextsPresent(d)
    ensures forall v :: Field(MatchStatusName, v) in CardFields(d) <==> d.faceMatchStatus == Some(v) && v != ""
    ensures forall v :: Field(SimilarityName, v) in CardFields(d) <==> d.similarity == Some(v) && v != ""
  {
    RankValues();
    ListFieldInCard(d);
    ListsMembers(d);
  }

  /** Detected Text is shown exactly when the `", "`-joined detections are non-empty,
      and holds the first `min(length, 1024)` characters of that string. */
  lemma DetectedTextField(d: EmbedData)
    requires AllLabelsNamed(d) && AllTextsPresent(d)
    ensures var joined := Join(TextStrings(d).value, ListSeparator);
      forall v :: Field(DetectedTextName, v) in CardFields(d) <==> joined != "" && v == Prefix(joined, TextLimit)
    ensures var joined := Join(TextStrings(d).value, ListSeparator);
      forall v :: Field(DetectedTextName, v) in CardFields(d) ==>
        && |v| == (if |joined| <= TextLimit then |joined| else TextLimit)
        && v == joined[..|v|]
    ensures HasField(CardFields(d), DetectedTextName) <==>
      |d.Texts()| >= 2 || (|d.Texts()| == 1 && d.Texts()[0].detectedText.value != "")
  {
    RankValues();
    var joined := Join(TextStrings(d).value, ListSeparator);
    ListFieldInCard(d);
    ListsMembers(d);
    HasFieldIffMember(CardFields(d), DetectedTextName);
    JoinEmptyIff(TextStrings(d).value, ListSeparator);
  }

  lemma FaceFieldsNonEmpty(face: FaceDetail)
    ensures forall f :: f in FaceFields(face) ==> f.value != ""
  {
    assert |GenderText(face)| > 0 && |AgeRangeText(face)| > 0;
    JoinEmptyIff(AttributeLines(face), "\n");
  }

  lemma OptionalNonEmpty(fs: seq<Field>, name: string, value: string)
    requires forall f :: f in fs ==> f.value != ""
    ensures forall f :: f in fs + OptionalField(name, value) ==> f.value != ""
  {
  }

  lemma ListsNonEmpty(d: EmbedData)
    requires AllLabelsNamed(d) && AllTextsPresent(d)
    ensures forall f :: f in Lists(d) ==> f.value != ""
  {
    var joined := Join(TextStrings(d).value, ListSeparator);
    var o := OptionalField(ObjectsName, Join(LabelNames(d).value, ListSeparator));
    var c := OptionalField(CelebritiesName, Join(CelebrityNames(d.Celebrities()), ListSeparator));
    var m := OptionalField(MatchStatusName, d.faceMatchStatus.GetOr(""));
    var s := OptionalField(SimilarityName, d.similarity.GetOr(""));
    var t := OptionalField(DetectedTextName, Prefix(joined, TextLimit));
    assert Lists(d) == o + c + m + s + t;
    OptionalNonEmpty([], ObjectsName, Join(LabelNames(d).value, ListSeparator));
    assert [] + o == o;
    OptionalNonEmpty(o, CelebritiesName, Join(CelebrityNames(d.Celebrities()), ListSeparator));
    OptionalNonEmpty(o + c, MatchStatusName, d.faceMatchStatus.GetOr(""));
    OptionalNonEmpty(o + c + m, SimilarityName, d.similarity.GetOr(""));
    OptionalNonEmpty(o + c + m + s, DetectedTextName, Prefix(joined, TextLimit));
  }

  /** No field is ever shown with an empty value. */
  lemma FieldValuesNonEmpty(d: EmbedData)
    requires AllLabelsNamed(d) && AllTextsPresent(d)
    ensures forall f :: f in CardFields(d) ==> f.value != ""
  {
    CardSplit(d);
    ListsNonEmpty(d);
    if |d.Faces()| > 0 {
      FaceFieldsNonEmpty(d.Faces()[0]);
    }
  }
}

=== FILE: photos.dfy ===
/** The `photos` command handler as a pure function. The attachments become a
    readable/unreadable flag, the vision-service replies are inputs, and the result
    records which service requests were issued, how many image files were posted
    back, and the card or error card that followed. */
module Photos {
  import opened Wrappers
  import opened Decimal
  import opened Rekognition
  import opened Embed

  /** Similarity strictly above this value (in hundredths: 90.00%) means the same person. */
  const SameFaceThreshold: Hundredths := 9000

  const SamePerson := "Likely the same person"
  const DifferentPeople := "Likely different people"

  /** An attached photo; `readable` says whether its staged bytes could be loaded. */
  datatype Attachment = Attachment(readable: bool)

  /** The vision-service operations the handler can request. */
  datatype Request = CompareFaces | DetectLabels | RecognizeCelebrities | DetectFaces | DetectText

  /** The service's reply to each operation, or the message of the error it raised. */
  datatype ServiceReplies = ServiceReplies(
    compare: Result<CompareFacesResponse, string>,
    labels: Result<LabelsResponse, string>,
    celebrities: Result<CelebritiesResponse, string>,
    faces: Result<FacesResponse, string>,
    text: Result<TextResponse, string>)

  datatype Fault =
    | NoPhoto                 // "You must attach at least one photo."
    | UnreadableBytes         // "Failed to read image bytes."
    | InvalidBytesParameter   // the service client refuses an image whose bytes are missing
    | ServiceError(message: string)
    | MissingKey(key: string) // a KeyError

  datatype Outcome = Card(embed: Embed) | ErrorCard(fault: Fault)

  datatype Run = Run(requests: seq<Request>, filesPosted: nat, outcome: Outcome)

  /** The four single-image operations, in the order they are requested. */
  const AnalysisRequests: seq<Request> := [DetectLabels, RecognizeCelebrities, DetectFaces, DetectText]

  /** The verdict for a similarity: strictly above the threshold is the same person. */
  function Verdict(similarity: Hundredths): (v: string)
    ensures v == SamePerson <==> similarity > SameFaceThreshold
    ensures v == DifferentPeople <==> similarity <= SameFaceThreshold
  {
    if similarity > SameFaceThreshold then SamePerson else DifferentPeople
  }

  /** The first match's similarity, or 0 when there is no match; a first match
      without a `Similarity` raises `KeyError`. */
  function SelectSimilarity(resp: CompareFacesResponse): (r: Result<Hundredths, string>)
    ensures resp.faceMatches.GetOr([]) == [] ==> r == Success(0)
    ensures resp.faceMatches.GetOr([]) != [] ==>
      var first := resp.faceMatches.value[0];
      r == (if first.similarity.Some? then Success(first.similarity.value) else Failure("Similarity"))
  {
    var matches := resp.faceMatches.GetOr([]);
    if |matches| > 0 then
      match matches[0].similarity
      case Some(s) => Success(s)
      case None => Failure("Similarity")
    else Success(0)
  }

  /** The card data of the comparison path: only a match status and a similarity. */
  function ComparisonData(similarity: Hundredths): EmbedData
  {
    EmbedData(None, None, None, Some(Verdict(similarity)), Some(Fmt2(similarity) + "%"), None)
  }

  /** Post the files, then build the card; a `KeyError` inside `build_embed` becomes
      an error card after the files are already out. */
  function Finish(requests: seq<Request>, files: nat, data: EmbedData): Run
  {
    match BuildEmbed(data)
    case Success(e) => Run(requests, files, Card(e))
    case Failure(k) => Run(requests, files, ErrorCard(MissingKey(k)))
  }

  function CompareRun(first: Attachment, second: Attachment, replies: ServiceReplies): Run
  {
    if !first.readable || !second.readable then Run([], 0, ErrorCard(UnreadableBytes))
    else
      match replies.compare
      case Failure(m) => Run([CompareFaces], 0, ErrorCard(ServiceError(m)))
      case Success(resp) =>
        match SelectSimilarity(resp)
        case Failure(k) => Run([CompareFaces], 0, ErrorCard(MissingKey(k)))
        case Success(s) => Finish([CompareFaces], 2, ComparisonData(s))
  }

  /** `analyze_image` followed by the four key lookups of the handler. The four
      requests go out in order and the first one that fails ends the run. */
  function SingleRun(first: Attachment, replies: ServiceReplies): Run
  {
    if !first.readable then Run([], 0, ErrorCard(InvalidBytesParameter))
    else
      match replies.labels
      case Failure(m) => Run(AnalysisRequests[..1], 0, ErrorCard(ServiceError(m)))
      case Success(labels) =>
      match replies.celebrities
      case Failure(m) => Run(AnalysisRequests[..2], 0, ErrorCard(ServiceError(m)))
      case Success(celebrities) =>
      match replies.faces
      case Failure(m) => Run(AnalysisRequests[..3], 0, ErrorCard(ServiceError(m)))
      case Success(faces) =>
      match replies.text
      case Failure(m) => Run(AnalysisRequests, 0, ErrorCard(ServiceError(m)))
      case Success(texts) =>
        if labels.labels.None? then Run(AnalysisRequests, 0, ErrorCard(MissingKey("Labels")))
        else if celebrities.celebrityFaces.None? then Run(AnalysisRequests, 0, ErrorCard(MissingKey("CelebrityFaces")))
        else if faces.faceDetails.None? then Run(AnalysisRequests, 0, ErrorCard(MissingKey("FaceDetails")))
        else if texts.textDetections.None? then Run(AnalysisRequests, 0, ErrorCard(MissingKey("TextDetections")))
        else
          Finish(AnalysisRequests, 1, EmbedData(faces.faceDetails, labels.labels,
            celebrities.celebrityFaces, None, None, texts.textDetections))
  }

  /** The `photos` command: a second attachment selects the comparison path,
      otherwise the single-image path runs. */
  function HandlePhotos(first: Option<Attachment>, second: Option<Attachment>, replies: ServiceReplies): (r: Run)
    ensures first.None? ==> r == Run([], 0, ErrorCard(NoPhoto))
    ensures first.Some? && second.Some? ==> r.requests == [] || r.requests == [CompareFaces]
    ensures second.None? ==> CompareFaces !in r.requests
    ensures first.Some? && second.Some? && !(first.value.readable && second.value.readable) ==>
      r == Run([], 0, ErrorCard(UnreadableBytes))
    ensures second.None? ==> r.requests <= AnalysisRequests
    ensures r.outcome.Card? ==> r.filesPosted == (if second.Some? then 2 else 1)
    ensures r.outcome.Card? && second.None? ==> r.requests == AnalysisRequests
    ensures r.filesPosted > 0 ==> |r.requests| > 0
    ensures r.outcome.ErrorCard? && r.filesPosted > 0 ==> r.outcome.fault.MissingKey?
  {
    if first.None? then Run([], 0, ErrorCard(NoPhoto))
    else if second.Some? then CompareRun(first.value, second.value, replies)
    else SingleRun(first.value, replies)
  }
}

=== FILE: photos_laws.dfy ===
/** What the `photos` handler promises about its two paths. */
module PhotosLaws {
  import opened Wrappers
  import opened Text
  import opened Decimal
  import opened Rekognition
  import opened Embed
  import opened EmbedLaws
  import opened Photos

  lemma ComparisonEmbed(s: Hundredths)
    ensures BuildEmbed(ComparisonData(s))
      == Success(Embed(Title, [Field(MatchStatusName, Verdict(s)), Field(SimilarityName, Fmt2(s) + "%")]))
  {
    var d := ComparisonData(s);
    assert LabelNames(d) == Some([]);
    assert TextStrings(d) == Some([]);
    assert CelebrityNames(d.Celebrities()) == [];
    assert Lists(d) == [Field(MatchStatusName, Verdict(s)), Field(SimilarityName, Fmt2(s) + "%")];
    CardSplit(d);
    assert FaceSection(d.Faces()) == [];
    var e := BuildEmbed(d).value;
    assert e.title == Title;
    assert e.fields == CardFields(d);
    assert e.fields == [] + Lists(d);
    assert [] + Lists(d) == Lists(d);
    assert e == Embed(Title, [Field(MatchStatusName, Verdict(s)), Field(SimilarityName, Fmt2(s) + "%")]);
    assert BuildEmbed(d) == Success(e);
  }

  /** With two readable photos and a comparison reply, the run issues the comparison
      request only, posts both files, and the card holds exactly Match Status (the
      verdict) and Similarity (the two-decimal percentage). */
  lemma ComparisonCard(first: Attachment, second: Attachment, replies: ServiceReplies, s: Hundredths)
    requires first.readable && second.readable
    requires replies.compare.Success? && SelectSimilarity(replies.compare.value) == Success(s)
    ensures HandlePhotos(Some(first), Some(second), replies)
      == Run([CompareFaces], 2,
             Card(Embed(Title, [Field(MatchStatusName, Verdict(s)), Field(SimilarityName, Fmt2(s) + "%")])))
  {
    ComparisonEmbed(s);
  }

  /** Without any face match the similarity is 0: the card reads "0.00%" and
      "Likely different people". */
  lemma NoMatchIsDifferentPeople(first: Attachment, second: Attachment, replies: ServiceReplies)
    requires first.readable && second.readable
    requires replies.compare.Success? && replies.compare.value.faceMatches.GetOr([]) == []
    ensures HandlePhotos(Some(first), Some(second), replies)
      == Run([CompareFaces], 2,
             Card(Embed(Title, [Field(MatchStatusName, DifferentPeople), Field(SimilarityName, "0.00%")])))
  {
    Fmt2Zero();
    assert Fmt2(0) + "%" == "0.00%";
    assert Verdict(0) == DifferentPeople;
    ComparisonCard(first, second, replies, 0);
  }

  /** The Similarity text determines the similarity: drop the `%` and read it back. */
  lemma SimilarityReadBack(s: Hundredths)
    ensures var v := Fmt2(s) + "%";
      |v| > 0 && v[|v| - 1] == '%' && ParseFmt2(v[..|v| - 1]) == Some(s)
  {
    var v := Fmt2(s) + "%";
    assert v[..|v| - 1] == Fmt2(s);
    ParseFmt2RoundTrip(s);
  }

  /** The single-image data passed to the card when every reply succeeded. */
  function SingleData(replies: ServiceReplies): EmbedData
    requires replies.labels.Success? && replies.celebrities.Success?
    requires replies.faces.Success? && replies.text.Success?
  {
    EmbedData(replies.faces.value.faceDetails, replies.labels.value.labels,
      replies.celebrities.value.celebrityFaces, None, None, replies.text.value.textDetections)
  }

  /** With one readable photo and complete replies, the run issues the four analysis
      requests in order, posts the one file, and shows the card built from the four
      replies; that card carries no Match Status or Similarity field. */
  lemma SingleImageCard(first: Attachment, replies: ServiceReplies)
    requires first.readable
    requires replies.labels.Success? && replies.labels.value.labels.Some?
    requires replies.celebrities.Success? && replies.celebrities.value.celebrityFaces.Some?
    requires replies.faces.Success? && replies.faces.value.faceDetails.Some?
    requires replies.text.Success? && replies.text.value.textDetections.Some?
    requires AllLabelsNamed(SingleData(replies)) && AllTextsPresent(SingleData(replies))
    ensures var r := HandlePhotos(Some(first), None, replies);
      && r.requests == AnalysisRequests
      && r.filesPosted == 1
      && r.outcome == Card(BuildEmbed(SingleData(replies)).value)
      && !HasField(r.outcome.embed.fields, MatchStatusName)
      && !HasField(r.outcome.embed.fields, SimilarityName)
  {
    var d := SingleData(replies);
    MatchFields(d);
    HasFieldIffMember(CardFields(d), MatchStatusName);
    HasFieldIffMember(CardFields(d), SimilarityName);
  }

  /** A failing analysis request ends the single-image run: the requests issued are
      exactly those up to the failing one, no file is posted, and the failing
      request's message is reported unchanged. */
  lemma SingleImageServiceFailure(first: Attachment, replies: ServiceReplies, k: nat)
    requires first.readable && k < |AnalysisRequests|
    requires k == 0 ==> replies.labels.Failure?
    requires k == 1 ==> replies.labels.Success? && replies.celebrities.Failure?
    requires k == 2 ==> replies.labels.Success? && replies.celebrities.Success? && replies.faces.Failure?
    requires k == 3 ==> replies.labels.Success? && replies.celebrities.Success? && replies.faces.Success?
                        && replies.text.Failure?
    ensures var r := HandlePhotos(Some(first), None, replies);
      && r.requests == AnalysisRequests[..k + 1]
      && r.filesPosted == 0
      && r.outcome.ErrorCard? && r.outcome.fault.ServiceError?
      && r.outcome.fault.message == (if k == 0 then replies.labels.error
        else if k == 1 then replies.celebrities.error
        else if k == 2 then replies.faces.error
        else replies.text.error)
  {
    assert AnalysisRequests[..4] == AnalysisRequests;
  }

  /** A comparison the service rejects ends the run after the one request, with no
      file posted, and reports the service's message unchanged. */
  lemma ComparisonServiceFailure(first: Attachment, second: Attachment, replies: ServiceReplies)
    requires first.readable && second.readable
    requires replies.compare.Failure?
    ensures HandlePhotos(Some(first), Some(second), replies)
      == Run([CompareFaces], 0, ErrorCard(ServiceError(replies.compare.error)))
  {
  }

  /** A first face match without a similarity raises `KeyError` before any file is
      posted. */
  lemma ComparisonMissingSimilarity(first: Attachment, second: Attachment, replies: ServiceReplies)
    requires first.readable && second.readable
    requires replies.compare.Success?
    requires replies.compare.value.faceMatches.GetOr([]) != []
    requires replies.compare.value.faceMatches.value[0].similarity.None?
    ensures HandlePhotos(Some(first), Some(second), replies)
      == Run([CompareFaces], 0, ErrorCard(MissingKey("Similarity")))
  {
  }

  /** On the single-image path unreadable bytes are refused by the service client
      before any request goes out. */
  lemma SingleImageUnreadable(first: Attachment, replies: ServiceReplies)
    requires !first.readable
    ensures HandlePhotos(Some(first), None, replies) == Run([], 0, ErrorCard(InvalidBytesParameter))
  {
  }

  /** When all four requests succeed but a reply lacks its top-level key, the first
      missing key in the order Labels, CelebrityFaces, FaceDetails, TextDetections
      raises `KeyError` before any file is posted. */
  lemma SingleImageMissingKey(first: Attachment, replies: ServiceReplies)
    requires first.readable
    requires replies.labels.Success? && replies.celebrities.Success?
    requires replies.faces.Success? && replies.text.Success?
    ensures var r := HandlePhotos(Some(first), None, replies);
      var labels, celebs := replies.labels.value.labels, replies.celebrities.value.celebrityFaces;
      var faces, texts := replies.faces.value.faceDetails, replies.text.value.textDetections;
      && (labels.None? ==> r == Run(AnalysisRequests, 0, ErrorCard(MissingKey("Labels"))))
      && (labels.Some? && celebs.None? ==> r == Run(AnalysisRequests, 0, ErrorCard(MissingKey("CelebrityFaces"))))
      && (labels.Some? && celebs.Some? && faces.None? ==>
          r == Run(AnalysisRequests, 0, ErrorCard(MissingKey("FaceDetails"))))
      && (labels.Some? && celebs.Some? && faces.Some? && texts.None? ==>
          r == Run(AnalysisRequests, 0, ErrorCard(MissingKey("TextDetections"))))
  {
  }
}

=== FILE: rekognition.dfy ===
/** The parts of the vision-service (Amazon Rekognition) responses that the bot
    reads. Each response is a loosely shaped mapping in the source; here every key
    the bot looks up is an `Option`, `None` standing for a missing key. */
module Rekognition {
  import opened Wrappers

  /** A percentage (confidence or similarity) in hundredths: 9012 stands for 90.12%. */
  type Hundredths = nat

  datatype Gender = Gender(value: Option<string>, confidence: Option<Hundredths>)

  datatype AgeRange = AgeRange(low: Option<nat>, high: Option<nat>)

  /** One entry of a face's `Emotions` list; `kind` is its `Type` key. */
  datatype Emotion = Emotion(kind: Option<string>, confidence: Option<Hundredths>)

  /** A yes/no facial attribute such as `Smile` or `Beard`. */
  datatype BoolAttribute = BoolAttribute(value: Option<bool>, confidence: Option<Hundredths>)

  /** One element of `FaceDetails`. The yes/no attributes are kept by their key
      (`Sunglasses`, `Smile`, `EyesOpen`, ...), as the service returns them. */
  datatype FaceDetail = FaceDetail(
    gender: Option<Gender>,
    ageRange: Option<AgeRange>,
    emotions: Option<seq<Emotion>>,
    attributes: map<string, BoolAttribute>)

  datatype Label = Label(name: Option<string>)

  datatype Celebrity = Celebrity(name: Option<string>)

  datatype TextDetection = TextDetection(detectedText: Option<string>)

  datatype FaceMatch = FaceMatch(similarity: Option<Hundredths>)

  /** Replies of the four single-image operations and of the comparison. */
  datatype LabelsResponse = LabelsResponse(labels: Option<seq<Label>>)

  datatype CelebritiesResponse = CelebritiesResponse(celebrityFaces: Option<seq<Celebrity>>)

  datatype FacesResponse = FacesResponse(faceDetails: Option<seq<FaceDetail>>)

  datatype TextResponse = TextResponse(textDetections: Option<seq<TextDetection>>)

  datatype CompareFacesResponse = CompareFacesResponse(faceMatches: Option<seq<FaceMatch>>)
}

=== FILE: text.dfy ===
/** String helpers with Python's semantics: `sep.join(xs)`, `s.split(c)` and `s[:n]`. */
module Text {

  /** `sep.join(xs)`. */
  function Join(xs: seq<string>, sep: string): string
  {
    if |xs| == 0 then ""
    else if |xs| == 1 then xs[0]
    else xs[0] + sep + Join(xs[1..], sep)
  }

  /** `s.split(c)` for a one-character separator: the pieces between separators,
      always at least one (`"".split(c) == [""]`). */
  function Split(s: string, c: char): (pieces: seq<string>)
    ensures |pieces| >= 1
  {
    if |s| == 0 then [""]
    else if s[0] == c then [""] + Split(s[1..], c)
    else
      var rest := Split(s[1..], c);
      [[s[0]] + rest[0]] + rest[1..]
  }

  /** `s[:n]`: the longest prefix of `s` of length at most `n`. */
  function Prefix(s: string, n: nat): (p: string)
    ensures |p| == if |s| <= n then |s| else n
    ensures p == s[..|p|]
  {
    if |s| <= n then s else s[..n]
  }

  predicate StartsWith(s: string, p: string)
  {
    |p| <= |s| && s[..|p|] == p
  }

  predicate EndsWith(s: string, p: string)
  {
    |p| <= |s| && s[|s| - |p|..] == p
  }

  lemma StartsWithConcat(a: string, b: string)
    ensures StartsWith(a + b, a)
  {
    assert (a + b)[..|a|] == a;
  }

  lemma EndsWithConcat(a: string, b: string)
    ensures EndsWith(a + b, b)
  {
    assert (a + b)[|a|..] == b;
  }

  /** Position of the first `c` in `s`, or `|s|` when there is none. */
  function IndexOf(s: string, c: char): (k: nat)
    ensures k <= |s|
    ensures c !in s[..k]
    ensures k < |s| ==> s[k] == c
  {
    if |s| == 0 then 0
    else if s[0] == c then 0
    else 1 + IndexOf(s[1..], c)
  }

  lemma IndexOfAfter(a: string, b: string, c: char)
    requires c !in a
    requires |b| > 0 && b[0] == c
    ensures IndexOf(a + b, c) == |a|
  {
    var s := a + b;
    assert s[|a|] == c;
    assert s[..|a|] == a;
    assert forall i :: 0 <= i < |a| ==> s[i] == a[i];
  }

  /** A joined string is empty exactly when there is nothing to join, or one empty piece. */
  lemma {:induction false} JoinEmptyIff(xs: seq<string>, sep: string)
    requires |sep| > 0
    ensures Join(xs, sep) == "" <==> |xs| == 0 || (|xs| == 1 && xs[0] == "")
  {
    if |xs| >= 2 {
      assert |Join(xs, sep)| >= |sep|;
    }
  }

  lemma {:induction false} SplitWithout(x: string, c: char)
    requires c !in x
    ensures Split(x, c) == [x]
  {
    if |x| > 0 {
      SplitWithout(x[1..], c);
      assert [x[0]] + x[1..] == x;
    }
  }

  lemma {:induction false} SplitAfter(x: string, rest: string, c: char)
    requires c !in x
    ensures Split(x + [c] + rest, c) == [x] + Split(rest, c)
  {
    var s := x + [c] + rest;
    if |x| == 0 {
      assert s[1..] == rest;
    } else {
      assert s[1..] == x[1..] + [c] + rest;
      SplitAfter(x[1..], rest, c);
      assert [x[0]] + x[1..] == x;
    }
  }

  /** Splitting at the separator undoes joining with it, when no piece holds the separator. */
  lemma {:induction false} SplitJoin(xs: seq<string>, c: char)
    requires |xs| >= 1
    requires forall i :: 0 <= i < |xs| ==> c !in xs[i]
    ensures Split(Join(xs, [c]), c) == xs
  {
    if |xs| == 1 {
      SplitWithout(xs[0], c);
    } else {
      SplitJoin(xs[1..], c);
      SplitAfter(xs[0], Join(xs[1..], [c]), c);
      assert xs == [xs[0]] + xs[1..];
    }
  }
}

=== FILE: wrappers.dfy ===
/** Optional values and results, used for the permissive key lookups of the
    vision-service responses and for the exceptions the handler turns into
    error cards. */
module Wrappers {

  /** A key that may be missing from a response mapping. */
  datatype Option<+T> = None | Some(value: T) {

    /** The value, or `default` when the key is missing (Python's `dict.get(key, default)`). */
    function GetOr(default: T): T {
      match this
      case Some(v) => v
      case None => default
    }
  }

  /** A computation that either succeeds or raises. */
  datatype Result<+R, +E> = Success(value: R) | Failure(error: E)

  /** All-or-nothing projection, the shape of a comprehension `[x['Key'] for x in xs]`:
      it succeeds with every value, in order, exactly when no element lacks the key. */
  function AllSome<T>(xs: seq<Option<T>>): (r: Option<seq<T>>)
    ensures r.Some? <==> forall i :: 0 <= i < |xs| ==> xs[i].Some?
    ensures r.Some? ==> |r.value| == |xs| && forall i :: 0 <= i < |xs| ==> r.value[i] == xs[i].value
  {
    if |xs| == 0 then Some([])
    else
      match xs[0]
      case None => None
      case Some(x) =>
        match AllSome(xs[1..])
        case None => None
        case Some(rest) => Some([x] + rest)
  }
}
